=== FILE: README.md ===
# Events catalog backend — Dafny model

This project models the logic core of a NestJS events backend. Organizers create events, other users RSVP,
and clients list events filtered by time window and paginated, with per-event RSVP counts. It covers:

- **Offset pagination** (`paginate`): the page window, the `first`/`last` indices, the echoed `limit`, the
  optional `total`, and the default options.
- **The events service**:
  - creation by the acting user, who becomes the organizer;
  - the update/remove protocol: NotFound, then Forbidden unless the actor is the organizer, then a partial
    merge or a deletion;
  - single-event lookup;
  - the listing query, built from the id-descending base query, four attendee counts per event, and an
    optional time-window predicate AND-ed on.
- **The earlier in-memory controller**: an array of events with `length + 1` ids, merge-update at the
  first matching index, and filter-remove.
- **The creation body's length rules**, where the address bounds depend on the validation group.

Modules:

| file | module | models |
|---|---|---|
| `optional.dfy` | `Optional` | `undefined`/`null` as `Option` |
| `paginator.dfy` | `Paginator` | `src/pagination/paginator.ts` |
| `event_entity.dfy` | `EventEntity` | the Event / Attendee / User records |
| `event_input.dfy` | `EventInput` | `src/events/input/create-event.dto.ts` and the update body |
| `event_store.dfy` | `EventStore` | the events table and `getEventsBaseQuery` |
| `event_query.dfy` | `EventQuery` | attendee counts, time windows, order-preserving `WHERE` |
| `events_service.dfy` | `EventsService` | `src/events/events.service.ts` |
| `legacy_controller.dfy` | `LegacyEvents` | `src/events.controller.ts` |

Modelling choices:

- **Queries** are the sequences of rows they return. `andWhere` is `Where`, an order-preserving selection.
  `LIMIT`/`OFFSET` is a slice.
- **The events table** is a map from id to event plus the next auto-increment id. Its invariant says keys
  are ids and every id lies in `[1, nextId)`.
- **Attendees** live inside their event, as the owned, eager relation does. Deleting an event therefore
  deletes its attendees.
- **Date-times** are integer timestamps in seconds, and a day is 86400 seconds. Other inputs the code
  cannot compute become parameters:
  - date parsing (`new Date(s)`) is the function `parse`;
  - the date-string check is `isDateString`;
  - `CURDATE()` is `Clock.today`;
  - `YEARWEEK(_, 1)` is `Clock.yearWeek`;
  - the number of ISO weeks in a year is `Clock.weeksInYear`.
- **Errors** are `Result` values: `NotFound`, `Forbidden` and `ValidationFailed`. An error carries no
  table, so a failed update or removal leaves the table as it was.

The model follows the code where a reader might expect otherwise:

- The day windows are closed at both ends (`<=`). Today and Tomorrow therefore share the instant at the
  start of tomorrow (`TodayTomorrowOverlap`). They are not half-open.
- The listing applies the filter and then paginates with a limit of 2 and `total` requested.
- The NextWeek window is the query's `YEARWEEK(when) = YEARWEEK(today) + 1`, which in the last week of a
  year matches no week (see "## Findings"). `EventQuery.FilteredIntended` is the filter with the intended
  successor week, and `FilteredAgreesWithinYear` shows the two agree in every other week.

## Model

| member | source | states |
|---|---|---|
| `Paginator.Window` | src/pagination/paginator.ts:53 | LIMIT/OFFSET selects the rows from the offset on, in order, as many as the limit allows and the rows provide |
| `Paginator.Paginate` | src/pagination/paginator.ts:52-60 | offset is `(currentPage-1)*limit`; data are the rows from the offset on in order, at most `limit`; `first = offset+1` even when empty; `last = offset+|data|`; `limit` echoed; total is the count of all rows exactly when requested, else null |
| `Paginator.PaginateOrDefault` | src/pagination/paginator.ts:45-51 | with no options: exactly the page for limit 10, page 1 and no total, so the first ten rows, first 1, `last` their count, no total |
| `Paginator.SpanMatchesData` | src/pagination/paginator.ts:55-56 | `last - first + 1 == |data|`; a page is empty exactly when `last == first - 1`, exactly when the offset is past the rows |
| `Paginator.LastWithinTotal` | src/pagination/paginator.ts:52-58 | with total requested, a non-empty page satisfies `1 <= first <= last <= total` |
| `Paginator.TotalIndependentOfPage` | src/pagination/paginator.ts:58 | the total does not depend on the page number or size |
| `Paginator.ConsecutivePagesContiguous` | src/pagination/paginator.ts:52-56 | after a full page, the next page's `first` is this page's `last + 1` |
| `Paginator.PagesArePrefix` | src/pagination/paginator.ts:52-53 | pages 1..n read in turn give exactly the first `min(n*limit, |rows|)` rows, with no gap or repeat |
| `Paginator.PageIsSlice` | src/pagination/paginator.ts:52-53 | page n is the slice of rows between offsets `(n-1)*limit` and `n*limit` |
| `Paginator.AllPagesReassemble` | src/pagination/paginator.ts:52-53 | once the pages cover all rows, reading them all returns the query's rows |
| `Paginator.RowOnItsPage` | src/pagination/paginator.ts:52-53 | row k appears on page `k/limit + 1` at position `k % limit` |
| `Paginator.FiveRowsPageSizeTwo` | src/pagination/paginator.ts:52-59 | 5 rows, size 2: page 1 is first 1, last 2; page 3 is first 5, last 5; page 4 is empty with first 7, last 6; total 5 |
| `EventInput.WhenSupplied` | src/events/events.service.ts:58 | an update supplies a new `when` exactly when the body's `when` is truthy: present and not the empty string |
| `EventInput.ValidName` | src/events/input/create-event.dto.ts:4-5 | a name is valid exactly when it has 5 to 255 characters |
| `EventInput.ValidDescription` | src/events/input/create-event.dto.ts:6-7 | a description is valid exactly when it has 5 to 255 characters |
| `EventInput.ValidAddress` | src/events/input/create-event.dto.ts:10-18 | an address is valid with 5 to 255 characters under `create` and 10 to 20 under `update` |
| `EventInput.ValidCreateEventInput` | src/events/input/create-event.dto.ts:4-18 | a creation body passes exactly when name, description and address meet their bounds for the group and `when` is a date string |
| `EventInput.NameBoundaries` | src/events/input/create-event.dto.ts:4-5 | a name of 4 or 256 characters is rejected; 5 and 255 are accepted |
| `EventInput.AddressGroupsDiffer` | src/events/input/create-event.dto.ts:10-18 | an address valid under `update` (10-20) is valid under `create` (5-255); exactly the lengths 5-9 and 21-255 pass create but fail update |
| `EventStore.ScanDown` | src/events/events.service.ts:31-33 | lists the stored events with ids from `hi` down to 1, strictly descending, each exactly as stored, missing none |
| `EventStore.BaseQuery` | src/events/events.service.ts:24-34 | the base query holds every stored event and only stored events, ordered by id, highest first |
| `EventStore.BaseQueryLength` | src/events/events.service.ts:24-34 | the base query has exactly as many rows as the table has events (each appears once) |
| `EventQuery.CountAnswer` | src/events/events.service.ts:85-93 | the count filtered by an answer is at most the number of attendees, and zero exactly when no attendee gave that answer |
| `EventQuery.CountIsMultiplicity` | src/events/events.service.ts:89-92 | the per-answer count equals the answer's multiplicity among the attendees' answers |
| `EventQuery.CountsAddUp` | src/events/events.service.ts:83-111 | the Accepted, Maybe and Rejected counts sum to the number of attendees |
| `EventQuery.Annotate` | src/events/events.service.ts:83-111 | a row carries its event, `attendeeCount` = number of its attendees, and the three per-answer counts, which sum to `attendeeCount` |
| `EventQuery.AnnotatedCountsAreMultiplicities` | src/events/events.service.ts:94-111 | each per-answer count of a row is the multiplicity of that answer among the event's attendees |
| `EventQuery.AnnotateAll` | src/events/events.service.ts:83-84 | counts are scalar side values: one row per event, in the query's order, never one per attendee |
| `EventQuery.Where` | src/events/events.service.ts:140-142 | `andWhere` keeps exactly the rows satisfying the predicate, as an order-preserving subsequence |
| `EventQuery.WhereCounts` | src/events/events.service.ts:140-142 | each row satisfying the predicate is kept as often as the query holds it; every other row is dropped |
| `EventQuery.WhereIdempotent` | src/events/events.service.ts:139-143 | AND-ing the same predicate twice selects the same rows as once |
| `EventQuery.SubsequenceKeepsOrder` | src/events/events.service.ts:132-162 | filtering the id-descending query keeps it id-descending |
| `EventQuery.SubsequenceMembers` | src/events/events.service.ts:132-162 | every row of a filtered query is a row of the unfiltered query |
| `EventQuery.NextYearWeekIsSuccessor` | src/events/events.service.ts:155-158 | the corrected next-week code is a valid week code, later than today's, with no valid code in between |
| `EventQuery.IntendedAgreesWithinYear` | src/events/events.service.ts:155-158 | outside a year's last week, `code + 1` and the corrected successor put the same instants in every window |
| `EventQuery.NextWeekMissesYearEnd` | src/events/events.service.ts:155-158 | in the last week of any year (52 or 53 weeks), `code + 1` names no week, so no event is in the written NextWeek window, while week 1 of the next year is in the intended one |
| `EventQuery.InWindow` | src/events/events.service.ts:139-158 | the four windows as the query writes them: closed day ranges from today and from tomorrow, the same week code as today, and today's week code plus one |
| `EventQuery.InWindowIntended` | src/events/events.service.ts:151-158 | the same windows with next week as the successor week, rolling over into week 1 of the next year |
| `EventQuery.ActiveWindow` | src/events/events.service.ts:134-138 | a window is active exactly when a filter is given and its `when` is one of the four recognised values |
| `EventQuery.Filtered` | src/events/events.service.ts:131-163 | with no filter, no `when` or an unrecognised `when`, the query is unchanged; otherwise it is exactly the rows in the window as the query writes it, each as often as before, as an order-preserving subsequence |
| `EventQuery.FilteredIntended` | src/events/events.service.ts:131-163 | the same filter with the intended NextWeek window: unchanged without a window, otherwise exactly the rows in the intended window, each as often as before |
| `EventQuery.FilteredAgreesWithinYear` | src/events/events.service.ts:151-158 | outside a year's last week, the written and the intended filters return the same rows |
| `EventQuery.NextWeekListingEmptyAtYearEnd` | src/events/events.service.ts:155-158 | in a year's last week, the NextWeek filter returns no rows whenever every event's week code names a real week |
| `EventQuery.FilterIdempotent` | src/events/events.service.ts:139-143 | applying the same filter twice yields the same rows as once |
| `EventQuery.TodayTomorrowOverlap` | src/events/events.service.ts:139-149 | an event is in both Today and Tomorrow exactly when it is at the start of tomorrow |
| `EventQuery.WeeksDisjoint` | src/events/events.service.ts:151-158 | no event is in both ThisWeek and NextWeek, under either reading of NextWeek |
| `EventsService.IsOrganizer` | src/events/events.service.ts:52 | the acting user passes the ownership gate exactly when the event's organizer id is the user's id; a null organizer passes for nobody |
| `EventsService.Merge` | src/events/events.service.ts:55-59 | supplied fields replace the stored ones, omitted ones keep theirs, `when` is the parsed input when truthy and the stored one otherwise; id, organizer and attendees kept |
| `EventsService.CreateEvent` | src/events/events.service.ts:36-42 | the new event gets a fresh id, the input fields, `when = parse(input.when)`, the acting user as organizer and no attendees; no stored event changes; the invariant holds |
| `EventsService.CreateRequest` | src/events/events.controller.ts:58-65 | creation succeeds exactly when the body passes the `create`-group rules, and then saves the input's fields with the actor as organizer, keeping every stored event, exactly as the service's create; otherwise it fails with a validation error |
| `EventsService.UpdateEvent` | src/events/events.service.ts:43-60 | NotFound exactly when the id is absent (checked first); Forbidden exactly when the event exists and the actor is not its organizer; otherwise only that event changes, to the merge |
| `EventsService.RemoveEvent` | src/events/events.service.ts:61-70 | same NotFound-then-Forbidden rule; on success exactly that id is deleted and every other event is untouched |
| `EventsService.AnnotatedQuery` | src/events/events.service.ts:71-112 | the counted query has one row per stored event, each with its own counts, highest id first |
| `EventsService.GetEvent` | src/events/events.service.ts:113-121 | succeeds exactly when the id is stored, returning that event with its four counts; otherwise NotFound |
| `EventsService.FilteredQuery` | src/events/events.service.ts:131-163 | the filtered query holds stored events only, with their counts, highest id first; with a window active, exactly the stored events in it; with none, all of them |
| `EventsService.FilteredQueryEmpty` | src/events/events.service.ts:138-159 | under an active window, the filtered query is empty exactly when no stored event lies in the window |
| `EventsService.ListPage` | src/events/events.service.ts:122-130 | the page holds the filtered query's rows from the offset on, as many as the page size and the query allow, highest id first; a requested total is the filtered query's length: the table size without a window, 0 exactly when no stored event lies in the active window |
| `EventsService.ListPageAgreesWithinYear` | src/events/events.service.ts:122-163 | outside a year's last week, the listing equals the page of the query filtered with the intended windows |
| `EventsService.ListPageShowsStoredEvents` | src/events/events.service.ts:122-130 | every listed row is a stored event with its own counts |
| `EventsService.PageDescending` | src/events/events.service.ts:24-34 | a page cut from the id-descending query is ordered by id, highest first |
| `EventsService.ListPageInWindow` | src/events/events.service.ts:138-159 | every listed event lies in the active window |
| `EventsService.ListingOptions` | src/events/events.controller.ts:38-46 | the listing route asks for page size 2, the requested page, and the total |
| `EventsService.NullOrganizerImmutable` | src/events/events.service.ts:52-54 | an event with a null organizer can be neither updated nor removed by anyone |
| `EventsService.CreatorMayMutate` | src/events/events.service.ts:36-70 | the creator passes the ownership check; removing a just-created event restores the previous events |
| `EventsService.CreateThenGet` | src/events/events.service.ts:36-42 | reading a new event back returns its input fields, the parsed `when`, and zero counts |
| `EventsService.UpdateThenGet` | src/events/events.service.ts:55-59 | reading an updated event back returns the merged record with its attendee counts unchanged |
| `EventsService.UpdateNothingIsIdentity` | src/events/events.service.ts:55-59 | an organizer's update that supplies no field leaves the table unchanged |
| `EventsService.UpdateIdempotent` | src/events/events.service.ts:55-59 | repeating an update changes nothing further |
| `EventsService.RemoveCascades` | src/events/events.service.ts:61-70 | after removal, the event is NotFound and no attendees remain under its id |
| `EventsService.RemovedIdNeverReused` | src/events/event.entity.ts:15-16 | auto-increment never hands out a removed event's id again |
| `EventsService.EmptyWindowListing` | src/events/events.service.ts:155-159 | a NextWeek listing with no stored event in the window is `{data: [], total: 0, first: 1, last: 0}` |
| `LegacyEvents.FindAll` | src/events.controller.ts:19-22 | returns the stored list as is |
| `LegacyEvents.FirstIndex` | src/events.controller.ts:41 | the first index holding the id, or -1 exactly when no event has it |
| `LegacyEvents.FindOne` | src/events.controller.ts:24-27 | the first event with the id, or nothing exactly when no event has it |
| `LegacyEvents.Create` | src/events.controller.ts:28-37 | appends exactly one event with id `length + 1`, the input fields and the parsed `when`; earlier entries unchanged |
| `LegacyEvents.MergeLegacy` | src/events.controller.ts:42-46 | supplied fields replace, omitted ones keep; `when` re-parsed only when truthy; id kept |
| `LegacyEvents.Update` | src/events.controller.ts:39-48 | replaces only the first event with the id by the merge; length, ids and every other entry unchanged |
| `LegacyEvents.Remove` | src/events.controller.ts:50-54 | drops every event with the id and keeps each other event, as often as it was there, in the original order |
| `LegacyEvents.IdsCanRepeat` | src/events.controller.ts:33 | create, create, remove id 1, create yields two events with id 2; `findOne(2)` returns the older one |
| `LegacyEvents.CreateUnique` | src/events.controller.ts:29-36 | corrected creation: the new id is not in the list, and unique ids stay unique |
| `LegacyEvents.CreateUniqueThenFindOne` | src/events.controller.ts:25-36 | after the corrected creation, `findOne` on the new id returns the new event |
| `LegacyEvents.UpdateKeepsUniqueIds` | src/events.controller.ts:40-47 | update preserves unique ids |
| `LegacyEvents.WhereKeepsUniqueIds` | src/events.controller.ts:53 | filtering a list with unique ids keeps them unique |
| `LegacyEvents.RemoveKeepsUniqueIds` | src/events.controller.ts:53 | removal preserves unique ids |

## Left out

- Query execution in TypeORM and MySQL is not modelled: `createQueryBuilder`, `loadRelationCountAndMap`,
  `getMany`, `getCount` and `getOne`. Queries are row sequences, and the model says nothing about how
  many database round trips a call makes.
- Real dates are not modelled. `new Date(..)`, `CURDATE()`, `INTERVAL`, `YEARWEEK` and the ISO calendar
  are parameters, so time zones, DST and which years have 53 ISO weeks are not modelled.
- Only the declared length bounds and an abstract date-string check are modelled. Which ungrouped
  decorators class-validator runs under a grouped pipe is not modelled. Its length counting
  (surrogate pairs, variation selectors) is also left out; the model counts Dafny characters.
- The update body's own validation is not modelled, because `update-event.dto.ts` is not part of this
  model. `attendee.entity.ts` and `list.events.ts` are used only for the names of the answers and the
  filters.
- Paginator.Paginate: requires `limit >= 1` and `currentPage >= 1`. A missing or non-numeric `page`
  query parameter (undefined or NaN arithmetic) is not modelled.
- LegacyEvents.Update: requires an event with the id. The source with `findIndex` returning -1 either
  throws (no truthy `when`) or writes a non-index property `-1` on the array. Neither is modelled.
- Route parameters are taken as integers. `parseInt` on a route string and `ParseIntPipe` rejections are
  not modelled.
- Request bodies are taken to carry only `name`, `description`, `when` and `address`. The source spreads the
  whole body into the record, and no pipe strips unknown properties, so a body carrying `id`,
  `organizerId` or `attendees` would overwrite those fields. Such extra properties are not modelled. A
  field sent as `null`, or as a value that is not a string, is likewise spread over the stored value
  (the legacy list stores it; the service hands it to `save`); the model only has an omitted field
  (`None`), which keeps the stored value. A `when` sent as `null` is handled as in the source, since
  `when` is set after the spread. The
  members whose contracts rest on this are listed next.
- EventsService.Merge: states that id, organizer and attendees are kept, which holds only for a body
  without those keys (the spread at src/events/events.service.ts:57).
- EventsService.CreateEvent: states a fresh id and the acting user as organizer, which holds only for a
  body without `id` or `organizerId` (the spread at src/events/events.service.ts:38).
- EventsService.UpdateEvent: the merge it applies keeps id and organizer only under the same assumption.
- LegacyEvents.MergeLegacy: states that the id is kept, which holds only for a body without `id` (the
  spread at src/events.controller.ts:44 has no validation pipe at all).
- LegacyEvents.Update: states that ids are unchanged, under the same assumption.
- LegacyEvents.Create: states the event holds exactly the four input fields; extra body properties the
  spread at src/events.controller.ts:31 would copy are not modelled (the id is set after the spread, so
  it is `length + 1` either way).
- EventsService.UpdateEvent: returns the new table rather than the saved entity. The saved entity is the
  table's entry for the id.
- Not modelled:
  - the requirement that an organizer reference an existing user (there is no users table);
  - RSVP creation;
  - authentication: JWT, bcrypt, Passport and Unauthorized errors;
  - logging and `@Expose`/`excludeAll` serialisation;
  - store-layer failures;
  - the check-then-write race between concurrent update and remove requests.
- The configuration, DI wiring and greeting service are not modelled. These are `app.module.ts`,
  `orm.config.ts` and `app.francais.service.ts`.

## Findings

| source | as written | input that shows it | evidently intended | confidence | as-written member | corrected member |
|---|---|---|---|---|---|---|
| src/events.controller.ts:33 | a new event's id is `this.events.length + 1` | create a, create b (ids 1, 2), remove 1, create c: c gets id 2, same as b; `findOne(2)` returns b, so c cannot be read or updated | ids that no stored event already has | not executed; high | `LegacyEvents.IdsCanRepeat` | `LegacyEvents.CreateUnique` |
| src/events/events.service.ts:155-158 | NextWeek is `YEARWEEK(e.when, 1) = YEARWEEK(CURDATE(), 1) + 1` | today 2024-12-25 (code 202452), event on 2025-01-01 (code 202501): `202452 + 1 = 202453` names no week, so the event is not listed | the ISO week after the current one, rolling over to week 1 of the next year | not executed; high | `EventQuery.NextWeekMissesYearEnd` | `EventQuery.NextYearWeekIsSuccessor` |

The listing (`EventQuery.Filtered`, `EventsService.ListPage`) models the query as written, through
`EventQuery.InWindow`. The corrected window is `EventQuery.InWindowIntended`, and the corrected filter is
`EventQuery.FilteredIntended`.

=== FILE: event_entity.dfy ===
/**
 * The persisted records: events, their attendees' RSVPs and users.
 * Date-times are integer timestamps in seconds.
 */
module EventEntity {
  import opened Optional

  type Timestamp = int

  /** Seconds in one calendar day, the length of `INTERVAL 1 DAY`. */
  const Day: int := 86400

  /** An attendee's RSVP answer. */
  datatype Answer = Accepted | Maybe | Rejected

  /** One user's RSVP to the event that owns it. */
  datatype Attendee = Attendee(id: int, userId: int, answer: Answer)

  datatype User = User(id: int, username: string)

  /**
   * A stored event. `organizerId` is a nullable column: `None` is an
   * event without an organizer. `attendees` is the owned one-to-many
   * relation, so deleting the event deletes them with it.
   */
  datatype Event = Event(
    id: int,
    name: string,
    description: string,
    when: Timestamp,
    address: string,
    organizerId: Option<int>,
    attendees: seq<Attendee>)
}

=== FILE: event_input.dfy ===
/**
 * The request bodies for creating and updating an event, and the field
 * length rules declared on the creation body. The address rule differs
 * between the `create` and the `update` validation group.
 */
module EventInput {
  import opened Optional

  /** The body of a create request; `when` is a date string still to be parsed. */
  datatype CreateEventInput = CreateEventInput(
    name: string,
    description: string,
    when: string,
    address: string)

  /** The body of an update request: every field may be omitted. */
  datatype UpdateEventInput = UpdateEventInput(
    name: Option<string>,
    description: Option<string>,
    when: Option<string>,
    address: Option<string>)

  /** The update that supplies no field. */
  const NoChanges := UpdateEventInput(None, None, None, None)

  /**
   * Whether an update supplies a new `when`: the value must be truthy,
   * that is present and not the empty string.
   */
  predicate WhenSupplied(w: Option<string>) {
    w.Some? && w.value != ""
  }

  /** The validation group the request pipe runs under. */
  datatype Group = CreateGroup | UpdateGroup

  /** The length bounds a field is declared with, both inclusive. */
  predicate LengthBetween(s: string, min: nat, max: nat) {
    min <= |s| <= max
  }

  /** The name's declared bounds: 5 to 255 characters. */
  predicate ValidName(name: string) {
    LengthBetween(name, 5, 255)
  }

  /** The description's declared bounds: 5 to 255 characters. */
  predicate ValidDescription(description: string) {
    LengthBetween(description, 5, 255)
  }

  /** 5 to 255 characters under `create`, 10 to 20 under `update`. */
  predicate ValidAddress(address: string, g: Group) {
    match g
    case CreateGroup => LengthBetween(address, 5, 255)
    case UpdateGroup => LengthBetween(address, 10, 20)
  }

  /**
   * Every declared rule of the creation body under group `g`; whether
   * `when` is a date string is decided by `isDateString`.
   */
  predicate ValidCreateEventInput(input: CreateEventInput, g: Group, isDateString: string -> bool) {
    && ValidName(input.name)
    && ValidDescription(input.description)
    && isDateString(input.when)
    && ValidAddress(input.address, g)
  }

  /** The name rule rejects 4 characters and accepts 5, 255, but not 256. */
  lemma NameBoundaries(name: string)
    ensures |name| == 4 ==> !ValidName(name)
    ensures |name| == 5 || |name| == 255 ==> ValidName(name)
    ensures |name| == 256 ==> !ValidName(name)
  {
  }

  /** Addresses valid under `update` are valid under `create`; 5-9 and 21-255 characters pass only `create`. */
  lemma AddressGroupsDiffer(address: string)
    ensures ValidAddress(address, UpdateGroup) ==> ValidAddress(address, CreateGroup)
    ensures ValidAddress(address, CreateGroup) && !ValidAddress(address, UpdateGroup)
        <==> (5 <= |address| <= 9 || 21 <= |address| <= 255)
  {
  }
}

=== FILE: event_query.dfy ===
/**
 * The listing query: each event annotated with its attendee counts, and
 * the optional time-window predicate AND-ed onto the id-descending base
 * query. A query is modelled as the sequence of rows it returns.
 */
module EventQuery {
  import opened Optional
  import opened EventEntity

  // ---------------------------------------------------------------------
  // Attendee counts
  // ---------------------------------------------------------------------

  /** A listing row: the event and its four correlated counts. */
  datatype Row = Row(
    event: Event,
    attendeeCount: nat,
    attendeeAccepted: nat,
    attendeeMaybe: nat,
    attendeeRejected: nat)

  /** Number of attendees whose answer is `a`. */
  function CountAnswer(xs: seq<Attendee>, a: Answer): (n: nat)
    ensures n <= |xs|
    ensures n == 0 <==> forall i :: 0 <= i < |xs| ==> xs[i].answer != a
  {
    if xs == [] then 0
    else CountAnswer(xs[1..], a) + (if xs[0].answer == a then 1 else 0)
  }

  /** The answers of the attendees, in order. */
  function AnswersOf(xs: seq<Attendee>): (r: seq<Answer>)
    ensures |r| == |xs|
    ensures forall i :: 0 <= i < |xs| ==> r[i] == xs[i].answer
  {
    seq(|xs|, i requires 0 <= i < |xs| => xs[i].answer)
  }

  /** The per-answer count is the multiplicity of that answer among all answers. */
  lemma {:induction false} CountIsMultiplicity(xs: seq<Attendee>, a: Answer)
    ensures CountAnswer(xs, a) == multiset(AnswersOf(xs))[a]
  {
    if xs != [] {
      CountIsMultiplicity(xs[1..], a);
      assert AnswersOf(xs) == [xs[0].answer] + AnswersOf(xs[1..]);
    }
  }

  /** Each answer count of a row is the multiplicity of that answer among the event's attendees. */
  lemma AnnotatedCountsAreMultiplicities(e: Event)
    ensures Annotate(e).attendeeAccepted == multiset(AnswersOf(e.attendees))[Accepted]
    ensures Annotate(e).attendeeMaybe == multiset(AnswersOf(e.attendees))[Maybe]
    ensures Annotate(e).attendeeRejected == multiset(AnswersOf(e.attendees))[Rejected]
  {
    CountIsMultiplicity(e.attendees, Accepted);
    CountIsMultiplicity(e.attendees, Maybe);
    CountIsMultiplicity(e.attendees, Rejected);
  }

  /** Every attendee has exactly one of the three answers, so the three counts add up to all attendees. */
  lemma {:induction false} CountsAddUp(xs: seq<Attendee>)
    ensures CountAnswer(xs, Accepted) + CountAnswer(xs, Maybe) + CountAnswer(xs, Rejected) == |xs|
  {
    if xs != [] {
      CountsAddUp(xs[1..]);
    }
  }

  /**
   * The event with its attendee counts: one unconditional count and one
   * per answer, the three of which always sum to the unconditional one.
   */
  function Annotate(e: Event): (r: Row)
    ensures r.event == e
    ensures r.attendeeCount == |e.attendees|
    ensures r.attendeeCount == r.attendeeAccepted + r.attendeeMaybe + r.attendeeRejected
    ensures r.attendeeAccepted == CountAnswer(e.attendees, Accepted)
    ensures r.attendeeMaybe == CountAnswer(e.attendees, Maybe)
    ensures r.attendeeRejected == CountAnswer(e.attendees, Rejected)
  {
    CountsAddUp(e.attendees);
    Row(e,
        |e.attendees|,
        CountAnswer(e.attendees, Accepted),
        CountAnswer(e.attendees, Maybe),
        CountAnswer(e.attendees, Rejected))
  }

  /**
   * The counts as scalar side values: one row per event, in the query's
   * order, never one row per attendee.
   */
  function AnnotateAll(es: seq<Event>): (rows: seq<Row>)
    ensures |rows| == |es|
    ensures forall i :: 0 <= i < |es| ==> rows[i].event == es[i] && rows[i] == Annotate(es[i])
  {
    seq(|es|, i requires 0 <= i < |es| => Annotate(es[i]))
  }

  // ---------------------------------------------------------------------
  // Order-preserving selection
  // ---------------------------------------------------------------------

  /** `a` can be obtained from `b` by deleting elements, keeping the order of the rest. */
  predicate Subsequence<T(==)>(a: seq<T>, b: seq<T>)
    decreases |b|
  {
    if a == [] then true
    else if b == [] then false
    else if a[0] == b[0] then Subsequence(a[1..], b[1..])
    else Subsequence(a, b[1..])
  }

  /** Every sequence is a subsequence of itself. */
  lemma {:induction false} SubsequenceReflexive<T>(xs: seq<T>)
    ensures Subsequence(xs, xs)
  {
    if xs != [] {
      SubsequenceReflexive(xs[1..]);
    }
  }

  /** The rows satisfying `p`, in their original order: a `WHERE` clause on an ordered query. */
  function Where<T(==)>(xs: seq<T>, p: T -> bool): (r: seq<T>)
    ensures |r| <= |xs|
    ensures forall i :: 0 <= i < |r| ==> r[i] in xs && p(r[i])
    ensures forall i :: 0 <= i < |xs| && p(xs[i]) ==> xs[i] in r
    ensures Subsequence(r, xs)
  {
    if xs == [] then []
    else if p(xs[0]) then [xs[0]] + Where(xs[1..], p)
    else Where(xs[1..], p)
  }

  /** The selection keeps each row satisfying `p` as often as the query holds it, and no other row. */
  lemma {:induction false} WhereCounts<T>(xs: seq<T>, p: T -> bool)
    ensures forall x :: multiset(Where(xs, p))[x] == if p(x) then multiset(xs)[x] else 0
  {
    if xs != [] {
      WhereCounts(xs[1..], p);
      assert xs == [xs[0]] + xs[1..];
    }
  }

  /** Predicates that agree on every row of a query select the same rows. */
  lemma {:induction false} WhereSamePredicate<T>(xs: seq<T>, p: T -> bool, q: T -> bool)
    requires forall i :: 0 <= i < |xs| ==> p(xs[i]) == q(xs[i])
    ensures Where(xs, p) == Where(xs, q)
  {
    if xs != [] {
      forall i | 0 <= i < |xs[1..]|
        ensures p(xs[1..][i]) == q(xs[1..][i])
      {
        assert xs[1..][i] == xs[i + 1];
      }
      WhereSamePredicate(xs[1..], p, q);
    }
  }

  /** Conjoining the same predicate twice selects the same rows as once. */
  lemma {:induction false} WhereIdempotent<T>(xs: seq<T>, p: T -> bool)
    ensures Where(Where(xs, p), p) == Where(xs, p)
  {
    if xs != [] {
      WhereIdempotent(xs[1..], p);
      if p(xs[0]) {
        assert ([xs[0]] + Where(xs[1..], p))[1..] == Where(xs[1..], p);
      }
    }
  }

  /** Rows ordered by event id, highest first. */
  predicate IdsDescending(rows: seq<Row>) {
    forall i, j :: 0 <= i < j < |rows| ==> rows[i].event.id > rows[j].event.id
  }

  /** A subsequence of an id-descending sequence of rows is id-descending. */
  lemma {:induction false} SubsequenceKeepsOrder(a: seq<Row>, b: seq<Row>)
    requires Subsequence(a, b)
    requires IdsDescending(b)
    ensures IdsDescending(a)
    decreases |b|
  {
    if a != [] && b != [] {
      if a[0] == b[0] {
        SubsequenceKeepsOrder(a[1..], b[1..]);
        SubsequenceMembers(a[1..], b[1..]);
        forall j | 0 < j < |a|
          ensures a[0].event.id > a[j].event.id
        {
          assert a[j] == a[1..][j - 1];
          var k :| 0 <= k < |b[1..]| && b[1..][k] == a[j];
          assert b[k + 1] == a[j];
        }
        forall i, j | 0 < i < j < |a|
          ensures a[i].event.id > a[j].event.id
        {
          assert a[i] == a[1..][i - 1] && a[j] == a[1..][j - 1];
        }
      } else {
        SubsequenceKeepsOrder(a, b[1..]);
      }
    }
  }

  /** Every element of a subsequence occurs in the sequence it was taken from. */
  lemma {:induction false} SubsequenceMembers<T>(a: seq<T>, b: seq<T>)
    requires Subsequence(a, b)
    ensures forall i :: 0 <= i < |a| ==> exists k :: 0 <= k < |b| && b[k] == a[i]
    decreases |b|
  {
    if a != [] && b != [] {
      if a[0] == b[0] {
        SubsequenceMembers(a[1..], b[1..]);
        forall i | 0 < i < |a|
          ensures exists k :: 0 <= k < |b| && b[k] == a[i]
        {
          assert a[i] == a[1..][i - 1];
          var k :| 0 <= k < |b[1..]| && b[1..][k] == a[1..][i - 1];
          assert b[k + 1] == a[i];
        }
        assert b[0] == a[0];
      } else {
        SubsequenceMembers(a, b[1..]);
        forall i | 0 <= i < |a|
          ensures exists k :: 0 <= k < |b| && b[k] == a[i]
        {
          var k :| 0 <= k < |b[1..]| && b[1..][k] == a[i];
          assert b[k + 1] == a[i];
        }
      }
    }
  }

  // ---------------------------------------------------------------------
  // Time-window filter
  // ---------------------------------------------------------------------

  /** The four recognised time windows of a listing. */
  datatype WhenFilter = Today | Tomorrow | ThisWeek | NextWeek

  /** The `when` query parameter: one of the four tokens, or any other value. */
  datatype WhenParam = Recognised(filter: WhenFilter) | Unrecognised

  /** The listing's query parameters. */
  datatype ListEvents = ListEvents(when: Option<WhenParam>, page: int)

  /**
   * The database's notion of now: `today` is the start of the current day
   * (`CURDATE()`), `yearWeek` the `YEARWEEK(_, 1)` code `yyyyww` of the ISO
   * week a time falls in, and `weeksInYear` the number of ISO weeks of a year.
   */
  datatype Clock = Clock(today: Timestamp, yearWeek: Timestamp -> int, weeksInYear: int -> int)

  /** Every ISO year has 52 or 53 weeks. */
  ghost predicate IsoYears(c: Clock) {
    forall y :: c.weeksInYear(y) == 52 || c.weeksInYear(y) == 53
  }

  /** A code `yyyyww` names a week that exists: week 1 to the last week of year `yyyy`. */
  predicate ValidYearWeek(code: int, c: Clock) {
    code >= 0 && 1 <= code % 100 <= c.weeksInYear(code / 100)
  }

  /** The code of the week after `code`: the next week of its year, or week 1 of the next year. */
  function NextYearWeek(code: int, c: Clock): int {
    if code % 100 < c.weeksInYear(code / 100) then code + 1 else (code / 100 + 1) * 100 + 1
  }

  /** The next week's code is valid, later, and no valid code lies between the two. */
  lemma NextYearWeekIsSuccessor(code: int, c: Clock)
    requires IsoYears(c) && ValidYearWeek(code, c)
    ensures ValidYearWeek(NextYearWeek(code, c), c)
    ensures code < NextYearWeek(code, c)
    ensures forall m :: code < m < NextYearWeek(code, c) ==> !ValidYearWeek(m, c)
  {
    var y, w := code / 100, code % 100;
    assert code == 100 * y + w;
    if w < c.weeksInYear(y) {
      assert (code + 1) / 100 == y && (code + 1) % 100 == w + 1;
    } else {
      var n := (y + 1) * 100 + 1;
      assert n / 100 == y + 1 && n % 100 == 1;
      assert c.weeksInYear(y + 1) >= 52;
      forall m | code < m < n
        ensures !ValidYearWeek(m, c)
      {
        if m < (y + 1) * 100 {
          assert m / 100 == y && m % 100 > w;
        } else {
          assert m == (y + 1) * 100 && m % 100 == 0;
        }
      }
    }
  }

  /**
   * Whether an event at `t` lies in window `w`, as the listing query writes
   * it. Both ends of a day window are inclusive; the week windows compare
   * week codes, next week being today's week code plus one.
   */
  predicate InWindow(w: WhenFilter, c: Clock, t: Timestamp) {
    match w
    case Today => c.today <= t <= c.today + Day
    case Tomorrow => c.today + Day <= t <= c.today + 2 * Day
    case ThisWeek => c.yearWeek(t) == c.yearWeek(c.today)
    case NextWeek => c.yearWeek(t) == c.yearWeek(c.today) + 1
  }

  /** The windows as intended: next week is the week after today's, rolling over into the next year. */
  predicate InWindowIntended(w: WhenFilter, c: Clock, t: Timestamp) {
    match w
    case NextWeek => c.yearWeek(t) == NextYearWeek(c.yearWeek(c.today), c)
    case _ => InWindow(w, c, t)
  }

  /** Today's week is not the last week of its year. */
  predicate BeforeYearEnd(c: Clock) {
    c.yearWeek(c.today) % 100 < c.weeksInYear(c.yearWeek(c.today) / 100)
  }

  /** Away from the last week of a year, the written and the intended windows agree. */
  lemma IntendedAgreesWithinYear(w: WhenFilter, c: Clock, t: Timestamp)
    requires BeforeYearEnd(c)
    ensures InWindow(w, c, t) <==> InWindowIntended(w, c, t)
  {
  }

  /**
   * In the last week of any year the written next-week code names no week
   * at all, so no event is in the written window, while an event in week 1
   * of the next year is in the intended one (today in week 52 of 2024, an
   * event in week 1 of 2025, say).
   */
  lemma NextWeekMissesYearEnd(c: Clock, t: Timestamp)
    requires IsoYears(c) && ValidYearWeek(c.yearWeek(c.today), c) && !BeforeYearEnd(c)
    ensures !ValidYearWeek(c.yearWeek(c.today) + 1, c)
    ensures ValidYearWeek(c.yearWeek(t), c) ==> !InWindow(NextWeek, c, t)
    ensures c.yearWeek(t) == (c.yearWeek(c.today) / 100 + 1) * 100 + 1 ==>
      InWindowIntended(NextWeek, c, t) && !InWindow(NextWeek, c, t)
  {
    var code := c.yearWeek(c.today);
    var y, w := code / 100, code % 100;
    assert code == 100 * y + w && w == c.weeksInYear(y) && w <= 53;
    assert (code + 1) / 100 == y && (code + 1) % 100 == w + 1;
    var n := (y + 1) * 100 + 1;
    assert n != code + 1;
  }

  /** The window a listing filters on, if any: none without parameters, without `when`, or for an unknown `when`. */
  function ActiveWindow(filter: Option<ListEvents>): (w: Option<WhenFilter>)
    ensures w.Some? <==> filter.Some? && filter.value.when.Some? && filter.value.when.value.Recognised?
    ensures w.Some? ==> w.value == filter.value.when.value.filter
  {
    match filter
    case None => None
    case Some(f) =>
      match f.when
      case Some(Recognised(w)) => Some(w)
      case _ => None
  }

  /**
   * The query with the listing's filter applied: unchanged when no window
   * is active, otherwise exactly the rows whose event lies in the window,
   * each as often as in the query, in the query's order.
   */
  function Filtered(rows: seq<Row>, filter: Option<ListEvents>, c: Clock): (r: seq<Row>)
    ensures ActiveWindow(filter).None? ==> r == rows
    ensures ActiveWindow(filter).Some? ==>
      forall x :: multiset(r)[x] == if InWindow(ActiveWindow(filter).value, c, x.event.when) then multiset(rows)[x] else 0
    ensures ActiveWindow(filter).Some? ==>
      forall x :: x in r <==> x in rows && InWindow(ActiveWindow(filter).value, c, x.event.when)
    ensures Subsequence(r, rows)
  {
    match ActiveWindow(filter)
    case None => SubsequenceReflexive(rows); rows
    case Some(w) =>
      var p := (x: Row) => InWindow(w, c, x.event.when);
      WhereCounts(rows, p);
      Where(rows, p)
  }

  /** The query filtered with the intended windows. */
  function FilteredIntended(rows: seq<Row>, filter: Option<ListEvents>, c: Clock): (r: seq<Row>)
    ensures ActiveWindow(filter).None? ==> r == rows
    ensures ActiveWindow(filter).Some? ==>
      forall x :: multiset(r)[x] == if InWindowIntended(ActiveWindow(filter).value, c, x.event.when) then multiset(rows)[x] else 0
    ensures Subsequence(r, rows)
  {
    match ActiveWindow(filter)
    case None => SubsequenceReflexive(rows); rows
    case Some(w) =>
      var p := (x: Row) => InWindowIntended(w, c, x.event.when);
      WhereCounts(rows, p);
      Where(rows, p)
  }

  /** Away from the last week of a year, the listing's filter selects what the intended filter selects. */
  lemma FilteredAgreesWithinYear(rows: seq<Row>, filter: Option<ListEvents>, c: Clock)
    requires BeforeYearEnd(c)
    ensures Filtered(rows, filter, c) == FilteredIntended(rows, filter, c)
  {
    match ActiveWindow(filter)
    case None =>
    case Some(w) =>
      var p := (x: Row) => InWindow(w, c, x.event.when);
      var q := (x: Row) => InWindowIntended(w, c, x.event.when);
      forall i | 0 <= i < |rows|
        ensures p(rows[i]) == q(rows[i])
      {
        IntendedAgreesWithinYear(w, c, rows[i].event.when);
      }
      WhereSamePredicate(rows, p, q);
  }

  /**
   * In the last week of a year the next-week listing is empty whenever every
   * event's week code names a real week, however many events fall in week 1
   * of the next year.
   */
  lemma NextWeekListingEmptyAtYearEnd(rows: seq<Row>, filter: Option<ListEvents>, c: Clock)
    requires IsoYears(c) && ValidYearWeek(c.yearWeek(c.today), c) && !BeforeYearEnd(c)
    requires ActiveWindow(filter) == Some(NextWeek)
    requires forall i :: 0 <= i < |rows| ==> ValidYearWeek(c.yearWeek(rows[i].event.when), c)
    ensures Filtered(rows, filter, c) == []
  {
    var r := Filtered(rows, filter, c);
    if r != [] {
      var x := r[0];
      assert x in r;
      var i :| 0 <= i < |rows| && rows[i] == x;
      NextWeekMissesYearEnd(c, x.event.when);
      assert false;
    }
  }

  /** Applying the same filter a second time changes nothing. */
  lemma FilterIdempotent(rows: seq<Row>, filter: Option<ListEvents>, c: Clock)
    ensures Filtered(Filtered(rows, filter, c), filter, c) == Filtered(rows, filter, c)
  {
    match ActiveWindow(filter)
    case None =>
    case Some(w) =>
      WhereIdempotent(rows, (x: Row) => InWindow(w, c, x.event.when));
  }

  /** Both day windows are closed, so they share exactly one instant: the start of tomorrow. */
  lemma TodayTomorrowOverlap(c: Clock, t: Timestamp)
    ensures InWindow(Today, c, t) && InWindow(Tomorrow, c, t) <==> t == c.today + Day
  {
  }

  /** No event is both in this week and in next week, under either reading of next week. */
  lemma WeeksDisjoint(c: Clock, t: Timestamp)
    ensures !(InWindow(ThisWeek, c, t) && InWindow(NextWeek, c, t))
    ensures !(InWindowIntended(ThisWeek, c, t) && InWindowIntended(NextWeek, c, t))
  {
  }
}

=== FILE: event_store.dfy ===
/**
 * The events table: events keyed by their auto-incremented id, and the
 * base query that reads all of them ordered by id, highest first.
 */
module EventStore {
  import opened EventEntity

  /** The events table and the next id auto-increment will hand out. */
  datatype Db = Db(events: map<int, Event>, nextId: int)

  /** Every stored event is keyed by its own id. */
  predicate KeyedById(m: map<int, Event>) {
    forall k :: k in m ==> m[k].id == k
  }

  /** The table invariant: ids are keys, positive, and below the next id. */
  predicate Valid(db: Db) {
    && KeyedById(db.events)
    && (forall k :: k in db.events ==> 1 <= k < db.nextId)
    && db.nextId >= 1
  }

  /** The empty table. */
  const Empty := Db(map[], 1)

  /** Ids strictly descending from front to back. */
  predicate DescendingIds(es: seq<Event>) {
    forall i, j :: 0 <= i < j < |es| ==> es[i].id > es[j].id
  }

  /** The stored events with ids `hi` down to 1, highest id first. */
  function ScanDown(m: map<int, Event>, hi: int): (r: seq<Event>)
    requires KeyedById(m)
    ensures DescendingIds(r)
    ensures forall i :: 0 <= i < |r| ==> 1 <= r[i].id <= hi && r[i].id in m && m[r[i].id] == r[i]
    ensures forall k :: k in m && 1 <= k <= hi ==> m[k] in r
    decreases hi
  {
    if hi < 1 then []
    else if hi in m then [m[hi]] + ScanDown(m, hi - 1)
    else ScanDown(m, hi - 1)
  }

  /**
   * The base query `ORDER BY e.id DESC` over the whole table: every stored
   * event exactly once, nothing else, highest id first.
   */
  function BaseQuery(db: Db): (r: seq<Event>)
    requires Valid(db)
    ensures DescendingIds(r)
    ensures forall i :: 0 <= i < |r| ==> r[i].id in db.events && db.events[r[i].id] == r[i]
    ensures forall k :: k in db.events ==> db.events[k] in r
  {
    ScanDown(db.events, db.nextId - 1)
  }

  /** The base query lists exactly as many events as the table holds. */
  lemma {:induction false} BaseQueryLength(db: Db)
    requires Valid(db)
    ensures |BaseQuery(db)| == |db.events|
  {
    ScanDownLength(db.events, db.nextId - 1);
    assert KeysUpTo(db.events, db.nextId - 1) == db.events.Keys;
  }

  /** The stored ids in `[1, hi]`. */
  function KeysUpTo(m: map<int, Event>, hi: int): set<int> {
    set k | k in m && 1 <= k <= hi
  }

  lemma {:induction false} ScanDownLength(m: map<int, Event>, hi: int)
    requires KeyedById(m)
    ensures |ScanDown(m, hi)| == |KeysUpTo(m, hi)|
    decreases hi
  {
    if hi < 1 {
      assert KeysUpTo(m, hi) == {};
    } else {
      ScanDownLength(m, hi - 1);
      KeysUpToStep(m, hi);
    }
  }

  lemma KeysUpToStep(m: map<int, Event>, hi: int)
    requires hi >= 1
    ensures |KeysUpTo(m, hi)| == |KeysUpTo(m, hi - 1)| + (if hi in m then 1 else 0)
  {
    var below := KeysUpTo(m, hi - 1);
    assert hi !in below;
    if hi in m {
      assert KeysUpTo(m, hi) == below + {hi};
    } else {
      assert KeysUpTo(m, hi) == below;
    }
  }
}

=== FILE: events_service.dfy ===
/**
 * The events service: creation by an authenticated user, the
 * organizer-only update and removal protocol, single-event lookup and the
 * filtered, annotated, paginated listing.
 *
 * Date parsing (`new Date(s)`) is the parameter `parse`; the date-string
 * check of the request pipe is the parameter `isDateString`.
 */
module EventsService {
  import opened Optional
  import opened EventEntity
  import opened EventInput
  import opened EventStore
  import opened EventQuery
  import opened Paginator

  /** The request outcomes other than success: 404, 403 and 400. */
  datatype ServiceError = NotFound | Forbidden | ValidationFailed

  datatype Result<T> = Ok(value: T) | Err(error: ServiceError)

  /** A successful creation: the new table and the stored event. */
  datatype Created = Created(db: Db, event: Event)

  /**
   * The ownership gate: the acting user is the event's organizer. An event
   * whose organizer is null passes for nobody.
   */
  predicate IsOrganizer(e: Event, user: User) {
    e.organizerId == Some(user.id)
  }

  /**
   * Spreading the update body over the stored event: supplied fields
   * replace the stored ones, omitted fields keep theirs, and `when` is the
   * parsed input if one is given and the stored one otherwise.
   */
  function Merge(e: Event, input: UpdateEventInput, parse: string -> Timestamp): (r: Event)
    ensures r.id == e.id && r.organizerId == e.organizerId && r.attendees == e.attendees
    ensures input.name.Some? ==> r.name == input.name.value
    ensures input.name.None? ==> r.name == e.name
    ensures input.description.Some? ==> r.description == input.description.value
    ensures input.description.None? ==> r.description == e.description
    ensures input.address.Some? ==> r.address == input.address.value
    ensures input.address.None? ==> r.address == e.address
    ensures WhenSupplied(input.when) ==> r.when == parse(input.when.value)
    ensures !WhenSupplied(input.when) ==> r.when == e.when
  {
    e.(name := input.name.GetOr(e.name),
       description := input.description.GetOr(e.description),
       address := input.address.GetOr(e.address),
       when := if WhenSupplied(input.when) then parse(input.when.value) else e.when)
  }

  /**
   * Saves a new event organized by `user` under the next auto-increment id,
   * with the input's fields, the parsed `when` and no attendees; no stored
   * event changes.
   */
  function CreateEvent(db: Db, input: CreateEventInput, user: User, parse: string -> Timestamp): (r: Created)
    requires Valid(db)
    ensures r.event.id !in db.events && r.event.id == db.nextId
    ensures r.event.name == input.name && r.event.description == input.description
    ensures r.event.address == input.address && r.event.when == parse(input.when)
    ensures r.event.organizerId == Some(user.id) && r.event.attendees == []
    ensures r.db.events.Keys == db.events.Keys + {r.event.id}
    ensures r.db.events[r.event.id] == r.event
    ensures forall k :: k in db.events ==> r.db.events[k] == db.events[k]
    ensures Valid(r.db)
    ensures IsOrganizer(r.event, user)
  {
    var e := Event(db.nextId, input.name, input.description, parse(input.when), input.address, Some(user.id), []);
    Created(Db(db.events[e.id := e], db.nextId + 1), e)
  }

  /** A create request: the body is validated under the `create` group before the event is saved. */
  function CreateRequest(db: Db, input: CreateEventInput, user: User,
                         isDateString: string -> bool, parse: string -> Timestamp): (r: Result<Created>)
    requires Valid(db)
    ensures r.Ok? <==> ValidCreateEventInput(input, CreateGroup, isDateString)
    ensures r.Err? ==> r.error == ValidationFailed
    ensures r.Ok? ==> r.value.event.organizerId == Some(user.id) && r.value.event.when == parse(input.when)
    ensures r.Ok? ==> Valid(r.value.db) && r.value.event.id in r.value.db.events
    ensures r.Ok? ==>
      && r.value.event.name == input.name
      && r.value.event.description == input.description
      && r.value.event.address == input.address
    ensures r.Ok? ==> forall k :: k in db.events ==> k in r.value.db.events && r.value.db.events[k] == db.events[k]
    ensures r.Ok? ==> r.value == CreateEvent(db, input, user, parse)
  {
    if ValidCreateEventInput(input, CreateGroup, isDateString) then Ok(CreateEvent(db, input, user, parse))
    else Err(ValidationFailed)
  }

  /**
   * Updates event `id` for `user`: NotFound when no such event, decided
   * before ownership; Forbidden when `user` is not its organizer; otherwise
   * only that event changes, to the merge of the input over it.
   */
  function UpdateEvent(db: Db, id: int, input: UpdateEventInput, user: User,
                       parse: string -> Timestamp): (r: Result<Db>)
    requires Valid(db)
    ensures r == Err(NotFound) <==> id !in db.events
    ensures r == Err(Forbidden) <==> id in db.events && !IsOrganizer(db.events[id], user)
    ensures r.Ok? <==> id in db.events && IsOrganizer(db.events[id], user)
    ensures r.Ok? ==> r.value.events.Keys == db.events.Keys && r.value.nextId == db.nextId
    ensures r.Ok? ==> r.value.events[id] == Merge(db.events[id], input, parse)
    ensures r.Ok? ==> forall k :: k in db.events && k != id ==> r.value.events[k] == db.events[k]
    ensures r.Ok? ==> Valid(r.value)
  {
    if id !in db.events then Err(NotFound)
    else if !IsOrganizer(db.events[id], user) then Err(Forbidden)
    else Ok(db.(events := db.events[id := Merge(db.events[id], input, parse)]))
  }

  /**
   * Removes event `id` for `user`, with the same NotFound-then-Forbidden
   * checks; on success exactly that event, with its attendees, is gone and
   * every other event is untouched.
   */
  function RemoveEvent(db: Db, id: int, user: User): (r: Result<Db>)
    requires Valid(db)
    ensures r == Err(NotFound) <==> id !in db.events
    ensures r == Err(Forbidden) <==> id in db.events && !IsOrganizer(db.events[id], user)
    ensures r.Ok? <==> id in db.events && IsOrganizer(db.events[id], user)
    ensures r.Ok? ==> r.value.events.Keys == db.events.Keys - {id} && r.value.nextId == db.nextId
    ensures r.Ok? ==> forall k :: k in r.value.events ==> r.value.events[k] == db.events[k]
    ensures r.Ok? ==> Valid(r.value)
  {
    if id !in db.events then Err(NotFound)
    else if !IsOrganizer(db.events[id], user) then Err(Forbidden)
    else Ok(db.(events := db.events - {id}))
  }

  /** The attendees stored for event `id`; none once it is gone. */
  function AttendeesOf(db: Db, id: int): seq<Attendee> {
    if id in db.events then db.events[id].attendees else []
  }

  /** The annotated listing query over the whole table, highest id first. */
  function AnnotatedQuery(db: Db): (rows: seq<Row>)
    requires Valid(db)
    ensures IdsDescending(rows)
    ensures forall i :: 0 <= i < |rows| ==>
      rows[i].event.id in db.events && rows[i] == Annotate(db.events[rows[i].event.id])
    ensures forall k :: k in db.events ==> Annotate(db.events[k]) in rows
  {
    var base := BaseQuery(db);
    var rows := AnnotateAll(base);
    assert forall k :: k in db.events ==> Annotate(db.events[k]) in rows by {
      forall k | k in db.events
        ensures Annotate(db.events[k]) in rows
      {
        AnnotateAllKeepsEvents(base, db.events[k]);
      }
    }
    rows
  }

  /** Every event of a query has its annotated row in the counted query. */
  lemma AnnotateAllKeepsEvents(es: seq<Event>, e: Event)
    requires e in es
    ensures Annotate(e) in AnnotateAll(es)
  {
    var i :| 0 <= i < |es| && es[i] == e;
    assert AnnotateAll(es)[i] == Annotate(e);
  }

  /**
   * The annotated query constrained to `id`: exactly the stored event with
   * its four counts, or NotFound.
   */
  function GetEvent(db: Db, id: int): (r: Result<Row>)
    requires Valid(db)
    ensures r.Ok? <==> id in db.events
    ensures r.Err? ==> r.error == NotFound
    ensures r.Ok? ==> r.value == Annotate(db.events[id])
  {
    var rows := AnnotatedQuery(db);
    var matches := Where(rows, (x: Row) => x.event.id == id);
    assert id in db.events ==> Annotate(db.events[id]) in matches;
    if matches == [] then Err(NotFound) else Ok(matches[0])
  }

  /**
   * The annotated query with the listing filter applied: stored events
   * only, each with its own counts, highest id first, each in the active
   * window, and every stored event when no window is active.
   */
  function FilteredQuery(db: Db, filter: Option<ListEvents>, c: Clock): (rows: seq<Row>)
    requires Valid(db)
    ensures forall i :: 0 <= i < |rows| ==>
      rows[i].event.id in db.events && rows[i] == Annotate(db.events[rows[i].event.id])
    ensures IdsDescending(rows)
    ensures ActiveWindow(filter).Some? ==>
      forall i :: 0 <= i < |rows| ==> InWindow(ActiveWindow(filter).value, c, rows[i].event.when)
    ensures ActiveWindow(filter).Some? ==>
      forall k :: k in db.events && InWindow(ActiveWindow(filter).value, c, db.events[k].when) ==>
        Annotate(db.events[k]) in rows
    ensures ActiveWindow(filter).None? ==> |rows| == |db.events|
  {
    var all := AnnotatedQuery(db);
    var rows := Filtered(all, filter, c);
    SubsequenceKeepsOrder(rows, all);
    SubsequenceMembers(rows, all);
    BaseQueryLength(db);
    rows
  }

  /**
   * The listing: one page of the filtered query, highest id first: its rows
   * from the page's offset on, as many as fit on the page. The total, when
   * requested, counts the filtered query; it is 0 exactly when no stored
   * event lies in the active window, and is the size of the table when no
   * window is active.
   */
  function ListPage(db: Db, filter: Option<ListEvents>, o: PaginateOptions, c: Clock): (r: PaginationResult<Row>)
    requires Valid(db) && WellFormed(o)
    ensures r.first == Offset(o) + 1 && r.last == Offset(o) + |r.data| && r.limit == o.limit
    ensures forall i :: 0 <= i < |r.data| ==>
      Offset(o) + i < |FilteredQuery(db, filter, c)| && r.data[i] == FilteredQuery(db, filter, c)[Offset(o) + i]
    ensures |r.data| == (if Offset(o) < |FilteredQuery(db, filter, c)|
      then Min(o.limit, |FilteredQuery(db, filter, c)| - Offset(o)) else 0)
    ensures IdsDescending(r.data)
    ensures o.total <==> r.total.Some?
    ensures o.total ==> r.total == Some(|FilteredQuery(db, filter, c)|)
    ensures o.total ==> (r.data != [] ==> r.last <= r.total.value)
    ensures o.total && ActiveWindow(filter).None? ==> r.total == Some(|db.events|)
    ensures o.total && ActiveWindow(filter).Some? ==>
      (r.total == Some(0) <==> NoneInWindow(db, ActiveWindow(filter).value, c))
  {
    var rows := FilteredQuery(db, filter, c);
    FilteredQueryEmpty(db, filter, c);
    PageDescending(rows, o);
    Paginate(rows, o)
  }

  /** Away from the last week of a year, the listing is the page of the query filtered with the intended windows. */
  lemma ListPageAgreesWithinYear(db: Db, filter: Option<ListEvents>, o: PaginateOptions, c: Clock)
    requires Valid(db) && WellFormed(o) && BeforeYearEnd(c)
    ensures ListPage(db, filter, o, c) == Paginate(FilteredIntended(AnnotatedQuery(db), filter, c), o)
  {
    FilteredAgreesWithinYear(AnnotatedQuery(db), filter, c);
  }

  /** A listed page shows stored events only, each with its own attendee counts. */
  lemma ListPageShowsStoredEvents(db: Db, filter: Option<ListEvents>, o: PaginateOptions, c: Clock)
    requires Valid(db) && WellFormed(o)
    ensures var data := ListPage(db, filter, o, c).data;
      forall i :: 0 <= i < |data| ==>
        data[i].event.id in db.events && data[i] == Annotate(db.events[data[i].event.id])
  {
    var rows := FilteredQuery(db, filter, c);
    var data := ListPage(db, filter, o, c).data;
    forall i | 0 <= i < |data|
      ensures data[i].event.id in db.events && data[i] == Annotate(db.events[data[i].event.id])
    {
      assert data[i] == rows[Offset(o) + i];
    }
  }

  /** A page of an id-descending query is id-descending. */
  lemma PageDescending(rows: seq<Row>, o: PaginateOptions)
    requires WellFormed(o) && IdsDescending(rows)
    ensures IdsDescending(Paginate(rows, o).data)
  {
    DescendingWindow(rows, Paginate(rows, o).data, Offset(o));
  }

  /** A contiguous window of an id-descending sequence of rows is id-descending. */
  lemma DescendingWindow(rows: seq<Row>, data: seq<Row>, off: nat)
    requires forall i :: 0 <= i < |data| ==> off + i < |rows| && data[i] == rows[off + i]
    requires IdsDescending(rows)
    ensures IdsDescending(data)
  {
    forall i, j | 0 <= i < j < |data|
      ensures data[i].event.id > data[j].event.id
    {
      var a, b := data[i], data[j];
      assert off + i < |rows| && a == rows[off + i];
      assert off + j < |rows| && b == rows[off + j];
    }
  }

  /** Every event on a listed page lies in the active window. */
  lemma ListPageInWindow(db: Db, filter: Option<ListEvents>, o: PaginateOptions, c: Clock)
    requires Valid(db) && WellFormed(o) && ActiveWindow(filter).Some?
    ensures var data := ListPage(db, filter, o, c).data;
      forall i :: 0 <= i < |data| ==> InWindow(ActiveWindow(filter).value, c, data[i].event.when)
  {
    var rows := FilteredQuery(db, filter, c);
    var data := ListPage(db, filter, o, c).data;
    forall i | 0 <= i < |data|
      ensures InWindow(ActiveWindow(filter).value, c, data[i].event.when)
    {
      assert data[i] == rows[Offset(o) + i];
    }
  }

  /** Under an active window the filtered query is empty exactly when no stored event lies in the window. */
  lemma FilteredQueryEmpty(db: Db, filter: Option<ListEvents>, c: Clock)
    requires Valid(db)
    ensures ActiveWindow(filter).Some? ==>
      (FilteredQuery(db, filter, c) == [] <==> NoneInWindow(db, ActiveWindow(filter).value, c))
  {
    if ActiveWindow(filter).Some? {
      var w := ActiveWindow(filter).value;
      var rows := FilteredQuery(db, filter, c);
      if rows != [] {
        var k := rows[0].event.id;
        assert k in db.events && InWindow(w, c, db.events[k].when);
      }
      if !NoneInWindow(db, w, c) {
        var k :| k in db.events && InWindow(w, c, db.events[k].when);
        assert Annotate(db.events[k]) in rows;
      }
    }
  }

  /** No stored event lies in window `w`. */
  predicate NoneInWindow(db: Db, w: WhenFilter, c: Clock) {
    forall k :: k in db.events ==> !InWindow(w, c, db.events[k].when)
  }

  /** The listing route's fixed options: two events per page, with the total. */
  function ListingOptions(page: int): (o: PaginateOptions)
    requires page >= 1
    ensures WellFormed(o) && o.limit == 2 && o.total && o.currentPage == page
  {
    PaginateOptions(2, page, true)
  }

  // ---------------------------------------------------------------------
  // Properties relating several operations
  // ---------------------------------------------------------------------

  /** An event whose organizer is null can be neither updated nor removed by anyone. */
  lemma NullOrganizerImmutable(db: Db, id: int, input: UpdateEventInput, user: User, parse: string -> Timestamp)
    requires Valid(db) && id in db.events && db.events[id].organizerId.None?
    ensures UpdateEvent(db, id, input, user, parse) == Err(Forbidden)
    ensures RemoveEvent(db, id, user) == Err(Forbidden)
  {
  }

  /** The creator passes the ownership gate: any update of the new event succeeds, and removing it restores the previous events. */
  lemma CreatorMayMutate(db: Db, input: CreateEventInput, user: User, change: UpdateEventInput, parse: string -> Timestamp)
    requires Valid(db)
    ensures var c := CreateEvent(db, input, user, parse);
      UpdateEvent(c.db, c.event.id, change, user, parse).Ok?
    ensures var c := CreateEvent(db, input, user, parse);
      RemoveEvent(c.db, c.event.id, user) == Ok(Db(db.events, db.nextId + 1))
  {
    var c := CreateEvent(db, input, user, parse);
    assert c.db.events - {c.event.id} == db.events;
  }

  /** Reading a new event back returns its input fields, the parsed `when`, and zero counts. */
  lemma CreateThenGet(db: Db, input: CreateEventInput, user: User, parse: string -> Timestamp)
    requires Valid(db)
    ensures var c := CreateEvent(db, input, user, parse);
      GetEvent(c.db, c.event.id) == Ok(Row(c.event, 0, 0, 0, 0))
  {
  }

  /** Reading an updated event back returns the merged record, with its attendee counts unchanged. */
  lemma UpdateThenGet(db: Db, id: int, input: UpdateEventInput, user: User, parse: string -> Timestamp)
    requires Valid(db)
    requires UpdateEvent(db, id, input, user, parse).Ok?
    ensures var db' := UpdateEvent(db, id, input, user, parse).value;
      && GetEvent(db', id) == Ok(Annotate(Merge(db.events[id], input, parse)))
      && GetEvent(db', id).value.attendeeCount == GetEvent(db, id).value.attendeeCount
      && GetEvent(db', id).value.attendeeAccepted == GetEvent(db, id).value.attendeeAccepted
      && GetEvent(db', id).value.attendeeMaybe == GetEvent(db, id).value.attendeeMaybe
      && GetEvent(db', id).value.attendeeRejected == GetEvent(db, id).value.attendeeRejected
  {
  }

  /** An update that supplies nothing leaves the table as it was. */
  lemma UpdateNothingIsIdentity(db: Db, id: int, user: User, parse: string -> Timestamp)
    requires Valid(db) && id in db.events && IsOrganizer(db.events[id], user)
    ensures UpdateEvent(db, id, NoChanges, user, parse) == Ok(db)
  {
    assert Merge(db.events[id], NoChanges, parse) == db.events[id];
    assert db.events[id := db.events[id]] == db.events;
  }

  /** Repeating an update changes nothing further. */
  lemma UpdateIdempotent(db: Db, id: int, input: UpdateEventInput, user: User, parse: string -> Timestamp)
    requires Valid(db)
    requires UpdateEvent(db, id, input, user, parse).Ok?
    ensures var db' := UpdateEvent(db, id, input, user, parse).value;
      UpdateEvent(db', id, input, user, parse) == Ok(db')
  {
    var db' := UpdateEvent(db, id, input, user, parse).value;
    assert Merge(db'.events[id], input, parse) == db'.events[id];
    assert db'.events[id := db'.events[id]] == db'.events;
  }

  /** After a removal the event and its attendees can no longer be found. */
  lemma RemoveCascades(db: Db, id: int, user: User)
    requires Valid(db)
    requires RemoveEvent(db, id, user).Ok?
    ensures var db' := RemoveEvent(db, id, user).value;
      GetEvent(db', id) == Err(NotFound) && AttendeesOf(db', id) == []
  {
  }

  /** Ids come from the auto-increment counter, so a removed event's id is never handed out again. */
  lemma RemovedIdNeverReused(db: Db, id: int, user: User, input: CreateEventInput, creator: User,
                             parse: string -> Timestamp)
    requires Valid(db)
    requires RemoveEvent(db, id, user).Ok?
    ensures var db' := RemoveEvent(db, id, user).value;
      CreateEvent(db', input, creator, parse).event.id != id
  {
  }

  /** Listing a window no stored event lies in yields an empty first page with total 0 and `last == 0`. */
  lemma EmptyWindowListing(db: Db, filter: ListEvents, c: Clock)
    requires Valid(db) && filter.page == 1
    requires filter.when == Some(Recognised(NextWeek))
    requires NoneInWindow(db, NextWeek, c)
    ensures var r := ListPage(db, Some(filter), ListingOptions(filter.page), c);
      r.data == [] && r.total == Some(0) && r.first == 1 && r.last == 0
  {
  }
}

=== FILE: legacy_controller.dfy ===
/**
 * The earlier, array-backed events controller: events live in an
 * in-memory list, a new event's id is the list length plus one, update
 * merges into the first event with the id, and remove drops every event
 * with the id.
 *
 * Because removal shortens the list, `length + 1` can hand out an id that
 * is still in use; `CreateUnique` is the corrected creation.
 */
module LegacyEvents {
  import opened Optional
  import opened EventEntity
  import opened EventInput
  import opened EventQuery

  /** An event of the in-memory list: the creation body plus a parsed `when` and an id. */
  datatype LegacyEvent = LegacyEvent(id: int, name: string, description: string, when: Timestamp, address: string)

  /** A creation's outcome: the new list and the event appended to it. */
  datatype Appended = Appended(events: seq<LegacyEvent>, event: LegacyEvent)

  /** Some event in the list carries `id`. */
  predicate HasId(events: seq<LegacyEvent>, id: int) {
    exists i :: 0 <= i < |events| && events[i].id == id
  }

  /** No two events of the list share an id. */
  predicate UniqueIds(events: seq<LegacyEvent>) {
    forall i, j :: 0 <= i < j < |events| ==> events[i].id != events[j].id
  }

  /** `findAll`: the stored list itself, unfiltered and in insertion order. */
  function FindAll(events: seq<LegacyEvent>): (r: seq<LegacyEvent>)
    ensures r == events
  {
    events
  }

  /** `findIndex`: the position of the first event with `id`, or -1 when there is none. */
  function FirstIndex(events: seq<LegacyEvent>, id: int): (k: int)
    ensures -1 <= k < |events|
    ensures k == -1 <==> !HasId(events, id)
    ensures k >= 0 ==> events[k].id == id && forall j :: 0 <= j < k ==> events[j].id != id
  {
    if events == [] then -1
    else if events[0].id == id then 0
    else
      var k := FirstIndex(events[1..], id);
      assert forall j :: 0 < j < |events| ==> events[j] == events[1..][j - 1];
      if k == -1 then -1 else k + 1
  }

  /** `findOne`: the first event with `id`, or nothing when no event has it. */
  function FindOne(events: seq<LegacyEvent>, id: int): (r: Option<LegacyEvent>)
    ensures r.None? <==> !HasId(events, id)
    ensures r.Some? ==> r.value.id == id && r.value in events
    ensures r.Some? ==> exists k :: (0 <= k < |events| && events[k] == r.value
      && forall j :: 0 <= j < k ==> events[j].id != id)
  {
    var k := FirstIndex(events, id);
    if k == -1 then None else Some(events[k])
  }

  /**
   * `create` as written: appends one event with the input's fields, the
   * parsed `when` and id `|events| + 1`; earlier entries are unchanged.
   */
  function Create(events: seq<LegacyEvent>, input: CreateEventInput, parse: string -> Timestamp): (r: Appended)
    ensures r.event.id == |events| + 1
    ensures r.event.name == input.name && r.event.description == input.description
    ensures r.event.address == input.address && r.event.when == parse(input.when)
    ensures |r.events| == |events| + 1 && r.events[|events|] == r.event
    ensures r.events[..|events|] == events
  {
    var e := LegacyEvent(|events| + 1, input.name, input.description, parse(input.when), input.address);
    Appended(events + [e], e)
  }

  /** The update body spread over a stored event; a truthy `when` is re-parsed, otherwise kept. */
  function MergeLegacy(e: LegacyEvent, input: UpdateEventInput, parse: string -> Timestamp): (r: LegacyEvent)
    ensures r.id == e.id
    ensures input.name.Some? ==> r.name == input.name.value
    ensures input.name.None? ==> r.name == e.name
    ensures input.description.Some? ==> r.description == input.description.value
    ensures input.description.None? ==> r.description == e.description
    ensures input.address.Some? ==> r.address == input.address.value
    ensures input.address.None? ==> r.address == e.address
    ensures WhenSupplied(input.when) ==> r.when == parse(input.when.value)
    ensures !WhenSupplied(input.when) ==> r.when == e.when
  {
    e.(name := input.name.GetOr(e.name),
       description := input.description.GetOr(e.description),
       address := input.address.GetOr(e.address),
       when := if WhenSupplied(input.when) then parse(input.when.value) else e.when)
  }

  /**
   * `update` on an id in the list: the first event with the id becomes the
   * merge of the input over it; the length and every other entry are
   * unchanged.
   */
  function Update(events: seq<LegacyEvent>, id: int, input: UpdateEventInput, parse: string -> Timestamp): (r: seq<LegacyEvent>)
    requires HasId(events, id)
    ensures |r| == |events|
    ensures forall j :: 0 <= j < |events| ==> r[j].id == events[j].id
    ensures exists k :: (0 <= k < |events| && events[k].id == id
      && (forall j :: 0 <= j < k ==> events[j].id != id)
      && r[k] == MergeLegacy(events[k], input, parse)
      && (forall j :: 0 <= j < |events| && j != k ==> r[j] == events[j]))
  {
    var k := FirstIndex(events, id);
    events[k := MergeLegacy(events[k], input, parse)]
  }

  /** `remove`: every event with `id` is dropped, the others stay, each as often as before, in their original order. */
  function Remove(events: seq<LegacyEvent>, id: int): (r: seq<LegacyEvent>)
    ensures !HasId(r, id)
    ensures forall i :: 0 <= i < |r| ==> r[i] in events
    ensures forall i :: 0 <= i < |events| && events[i].id != id ==> events[i] in r
    ensures forall e :: multiset(r)[e] == if e.id != id then multiset(events)[e] else 0
    ensures Subsequence(r, events)
  {
    var keep := (e: LegacyEvent) => e.id != id;
    WhereCounts(events, keep);
    Where(events, keep)
  }

  // ---------------------------------------------------------------------
  // Ids can repeat, and the corrected creation
  // ---------------------------------------------------------------------

  /**
   * Two creations, a removal of the first event and a third creation leave
   * two events with id 2; the later one cannot be found by `findOne`.
   */
  lemma IdsCanRepeat(a: CreateEventInput, b: CreateEventInput, c: CreateEventInput, parse: string -> Timestamp)
    ensures var s1 := Create([], a, parse).events;
      var s2 := Create(s1, b, parse).events;
      var s3 := Remove(s2, 1);
      var s4 := Create(s3, c, parse).events;
      && |s4| == 2 && s4[0].id == 2 && s4[1].id == 2
      && !UniqueIds(s4)
      && s4[1] == Create(s3, c, parse).event && s4[1].name == c.name
      && FindOne(s4, 2) == Some(s4[0]) && s4[0].name == b.name
  {
    var s1 := Create([], a, parse).events;
    var s2 := Create(s1, b, parse).events;
    assert s2 == [s2[0], s2[1]] && s2[0].id == 1 && s2[1].id == 2;
    var s3 := Remove(s2, 1);
    assert s3 == [s2[1]];
    var s4 := Create(s3, c, parse).events;
    assert s4[0].name == b.name && s4[1].name == c.name;
  }

  /** The largest id in the list, 0 for the empty list. */
  function MaxId(events: seq<LegacyEvent>): (m: int)
    ensures m >= 0
    ensures forall i :: 0 <= i < |events| ==> events[i].id <= m
    ensures events != [] && events[|events| - 1].id > 0 ==> m >= events[|events| - 1].id
  {
    if events == [] then 0
    else
      var m := MaxId(events[..|events| - 1]);
      var last := events[|events| - 1].id;
      assert forall i :: 0 <= i < |events| - 1 ==> events[i] == events[..|events| - 1][i];
      if last > m then last else m
  }

  /** Corrected creation: the new id lies above every id in the list, so it is fresh. */
  function CreateUnique(events: seq<LegacyEvent>, input: CreateEventInput, parse: string -> Timestamp): (r: Appended)
    ensures !HasId(events, r.event.id)
    ensures r.event.name == input.name && r.event.description == input.description
    ensures r.event.address == input.address && r.event.when == parse(input.when)
    ensures |r.events| == |events| + 1 && r.events[|events|] == r.event
    ensures r.events[..|events|] == events
    ensures UniqueIds(events) ==> UniqueIds(r.events)
  {
    var e := LegacyEvent(MaxId(events) + 1, input.name, input.description, parse(input.when), input.address);
    Appended(events + [e], e)
  }

  /** After the corrected creation, `findOne` on the new id returns the new event. */
  lemma CreateUniqueThenFindOne(events: seq<LegacyEvent>, input: CreateEventInput, parse: string -> Timestamp)
    ensures var r := CreateUnique(events, input, parse); FindOne(r.events, r.event.id) == Some(r.event)
  {
    var r := CreateUnique(events, input, parse);
    assert r.events[|events|].id == r.event.id;
  }

  /** Updates keep the ids, so they keep them unique. */
  lemma UpdateKeepsUniqueIds(events: seq<LegacyEvent>, id: int, input: UpdateEventInput, parse: string -> Timestamp)
    requires HasId(events, id) && UniqueIds(events)
    ensures UniqueIds(Update(events, id, input, parse))
  {
  }

  /** The tail of a list with unique ids has unique ids. */
  lemma TailKeepsUniqueIds(events: seq<LegacyEvent>)
    requires events != [] && UniqueIds(events)
    ensures UniqueIds(events[1..])
  {
    var rest := events[1..];
    forall i, j | 0 <= i < j < |rest|
      ensures rest[i].id != rest[j].id
    {
      assert rest[i] == events[i + 1] && rest[j] == events[j + 1];
    }
  }

  /** Putting an event whose id is new in front of a list with unique ids keeps them unique. */
  lemma ConsKeepsUniqueIds(e: LegacyEvent, w: seq<LegacyEvent>)
    requires UniqueIds(w) && !HasId(w, e.id)
    ensures UniqueIds([e] + w)
  {
    var r := [e] + w;
    forall i, j | 0 <= i < j < |r|
      ensures r[i].id != r[j].id
    {
      assert r[j] == w[j - 1];
      if i > 0 {
        assert r[i] == w[i - 1];
      }
    }
  }

  /** Dropping events keeps ids unique. */
  lemma {:induction false} WhereKeepsUniqueIds(events: seq<LegacyEvent>, p: LegacyEvent -> bool)
    requires UniqueIds(events)
    ensures UniqueIds(Where(events, p))
  {
    if events != [] {
      var rest := events[1..];
      TailKeepsUniqueIds(events);
      WhereKeepsUniqueIds(rest, p);
      if p(events[0]) {
        var w := Where(rest, p);
        assert !HasId(w, events[0].id) by {
          forall j | 0 <= j < |w|
            ensures w[j].id != events[0].id
          {
            var k :| 0 <= k < |rest| && rest[k] == w[j];
            assert events[k + 1] == w[j];
          }
        }
        ConsKeepsUniqueIds(events[0], w);
      }
    }
  }

  /** Removal keeps ids unique. */
  lemma RemoveKeepsUniqueIds(events: seq<LegacyEvent>, id: int)
    requires UniqueIds(events)
    ensures UniqueIds(Remove(events, id))
  {
    WhereKeepsUniqueIds(events, (e: LegacyEvent) => e.id != id);
  }
}

=== FILE: optional.dfy ===
/** Optional values: the model's stand-in for an omitted key and for a null column. */
module Optional {

  /**
   * `None` is an absent value: a key omitted from a request body, or a null
   * column such as an event without organizer. `Some(v)` is a present one.
   */
  datatype Option<+T> = None | Some(value: T) {

    /** The present value, or `default` when absent. */
    function GetOr(default: T): T {
      match this
      case Some(v) => v
      case None => default
    }
  }
}

=== FILE: paginator.dfy ===
/**
 * Offset pagination over an ordered query, as done by `paginate`:
 * a page is the window of at most `limit` rows starting at
 * `(currentPage - 1) * limit`, reported together with the 1-based indices
 * of its first and last rows and, on request, the count of all rows.
 */
module Paginator {
  import opened Optional

  /** `total` requests the count of all rows; an omitted `total` is `false`. */
  datatype PaginateOptions = PaginateOptions(limit: int, currentPage: int, total: bool)

  /** The pagination envelope. `total` is `None` when it was not requested. */
  datatype PaginationResult<T> = PaginationResult(
    first: int,
    last: int,
    limit: int,
    total: Option<nat>,
    data: seq<T>)

  /** The options used when the caller passes none: 10 rows, page 1, no total. */
  const DefaultOptions := PaginateOptions(10, 1, false)

  /** Page size and page number are positive. */
  predicate WellFormed(o: PaginateOptions) {
    o.limit >= 1 && o.currentPage >= 1
  }

  function Min(a: int, b: int): int {
    if a <= b then a else b
  }

  /** Number of rows skipped before the requested page. */
  function Offset(o: PaginateOptions): (n: nat)
    requires WellFormed(o)
    ensures n == (o.currentPage - 1) * o.limit
  {
    NonNegativeProduct(o.currentPage - 1, o.limit);
    (o.currentPage - 1) * o.limit
  }

  lemma NonNegativeProduct(a: nat, b: nat)
    ensures a * b >= 0
  {
  }

  /** The rows a LIMIT/OFFSET clause selects from an ordered query. */
  function Window<T>(rows: seq<T>, offset: nat, limit: nat): (w: seq<T>)
    ensures |w| == (if offset < |rows| then Min(limit, |rows| - offset) else 0)
    ensures forall i :: 0 <= i < |w| ==> offset + i < |rows| && w[i] == rows[offset + i]
  {
    if offset >= |rows| then [] else rows[offset .. Min(offset + limit, |rows|)]
  }

  /**
   * One page of `rows`. Its data are the rows from index `offset` on, in
   * their existing order, at most `limit` of them and no fewer than remain;
   * `first` is `offset + 1` even for an empty page and `last` is
   * `offset + |data|`; the total, when requested, counts all rows.
   */
  function Paginate<T>(rows: seq<T>, o: PaginateOptions): (r: PaginationResult<T>)
    requires WellFormed(o)
    ensures r.first == Offset(o) + 1
    ensures r.last == Offset(o) + |r.data|
    ensures r.limit == o.limit
    ensures |r.data| <= o.limit
    ensures |r.data| == (if Offset(o) < |rows| then Min(o.limit, |rows| - Offset(o)) else 0)
    ensures forall i :: 0 <= i < |r.data| ==> Offset(o) + i < |rows| && r.data[i] == rows[Offset(o) + i]
    ensures o.total <==> r.total.Some?
    ensures o.total ==> r.total == Some(|rows|)
  {
    var offset := Offset(o);
    var data := Window(rows, offset, o.limit);
    PaginationResult(offset + 1, offset + |data|, o.limit, if o.total then Some(|rows|) else None, data)
  }

  /** `paginate` with its options argument possibly omitted. */
  function PaginateOrDefault<T>(rows: seq<T>, o: Option<PaginateOptions>): (r: PaginationResult<T>)
    requires o.Some? ==> WellFormed(o.value)
    ensures o.None? ==> r.first == 1 && r.limit == 10 && r.total == None
    ensures o.None? ==> r == Paginate(rows, DefaultOptions)
    ensures o.None? ==> r.data == rows[..Min(10, |rows|)] && r.last == |r.data|
    ensures o.Some? ==> r == Paginate(rows, o.value)
  {
    Paginate(rows, o.GetOr(DefaultOptions))
  }

  /** The envelope's index span is exactly as long as its data; an empty page has `last == first - 1`. */
  lemma SpanMatchesData<T>(rows: seq<T>, o: PaginateOptions)
    requires WellFormed(o)
    ensures var r := Paginate(rows, o); r.last - r.first + 1 == |r.data|
    ensures var r := Paginate(rows, o); r.data == [] <==> r.last == r.first - 1
    ensures var r := Paginate(rows, o); r.data == [] <==> |rows| <= (o.currentPage - 1) * o.limit
  {
  }

  /** A non-empty page ends within the requested total. */
  lemma LastWithinTotal<T>(rows: seq<T>, o: PaginateOptions)
    requires WellFormed(o) && o.total
    ensures var r := Paginate(rows, o); r.data != [] ==> 1 <= r.first <= r.last <= r.total.value
  {
  }

  /** The total depends on the rows only, never on the requested page or size. */
  lemma TotalIndependentOfPage<T>(rows: seq<T>, o: PaginateOptions, o': PaginateOptions)
    requires WellFormed(o) && WellFormed(o') && o.total == o'.total
    ensures Paginate(rows, o).total == Paginate(rows, o').total
  {
  }

  /** A full page is followed directly by the next one: its `first` is this page's `last + 1`. */
  lemma ConsecutivePagesContiguous<T>(rows: seq<T>, o: PaginateOptions)
    requires WellFormed(o)
    requires |Paginate(rows, o).data| == o.limit
    ensures Paginate(rows, o.(currentPage := o.currentPage + 1)).first == Paginate(rows, o).last + 1
  {
  }

  /** The rows of pages 1 to `n` of size `limit`, concatenated. */
  function Pages<T>(rows: seq<T>, limit: int, n: nat): seq<T>
    requires limit >= 1
  {
    if n == 0 then [] else Pages(rows, limit, n - 1) + Paginate(rows, PaginateOptions(limit, n, false)).data
  }

  /** Reading pages 1, 2, ..., n in turn yields a prefix of the rows, without gaps or repeats. */
  lemma {:induction false} PagesArePrefix<T>(rows: seq<T>, limit: int, n: nat)
    requires limit >= 1
    ensures Pages(rows, limit, n) == rows[..Min(n * limit, |rows|)]
  {
    if n > 0 {
      PagesArePrefix(rows, limit, n - 1);
      var lo, hi := Min((n - 1) * limit, |rows|), Min(n * limit, |rows|);
      PageIsSlice(rows, limit, n);
      assert rows[..lo] + rows[lo..hi] == rows[..hi];
    }
  }

  /** Page `n` of size `limit` is the slice between the ends of pages `n - 1` and `n`. */
  lemma PageIsSlice<T>(rows: seq<T>, limit: int, n: nat)
    requires limit >= 1 && n >= 1
    ensures 0 <= Min((n - 1) * limit, |rows|) <= Min(n * limit, |rows|)
    ensures Paginate(rows, PaginateOptions(limit, n, false)).data
         == rows[Min((n - 1) * limit, |rows|) .. Min(n * limit, |rows|)]
  {
    assert n * limit == (n - 1) * limit + limit;
    NonNegativeProduct(n - 1, limit);
  }

  /** Once the pages cover every row, reading them all returns exactly the query's rows. */
  lemma AllPagesReassemble<T>(rows: seq<T>, limit: int, n: nat)
    requires limit >= 1 && n * limit >= |rows|
    ensures Pages(rows, limit, n) == rows
  {
    PagesArePrefix(rows, limit, n);
  }

  /** Row `k` (0-based) is found on page `k / limit + 1` at position `k % limit`. */
  lemma RowOnItsPage<T>(rows: seq<T>, limit: int, k: nat)
    requires limit >= 1 && k < |rows|
    ensures var r := Paginate(rows, PaginateOptions(limit, k / limit + 1, false));
      k % limit < |r.data| && r.data[k % limit] == rows[k]
  {
    var p := k / limit + 1;
    assert k == (k / limit) * limit + k % limit;
    assert (p - 1) * limit + k % limit == k;
  }

  /** The envelopes observed for 5 rows with page size 2 and `total` requested. */
  lemma FiveRowsPageSizeTwo(rows: seq<int>)
    requires rows == [10, 20, 30, 40, 50]
    ensures Paginate(rows, PaginateOptions(2, 1, true)) == PaginationResult(1, 2, 2, Some(5), [10, 20])
    ensures Paginate(rows, PaginateOptions(2, 3, true)) == PaginationResult(5, 5, 2, Some(5), [50])
    ensures Paginate(rows, PaginateOptions(2, 4, true)) == PaginationResult(7, 6, 2, Some(5), [])
  {
  }
}
